=== FILE: README.md ===
# Match-3 board engine in Dafny

This project models the board engine of `Match3Game`, a Swing match-3 puzzle.
The board is an 8 × 8 grid. Each cell holds one of five colours, or is empty
(`null`) while a cascade is running. The model covers these parts:

- swap legality and the swap primitive;
- the run detector, which finds three equal non-empty cells in a row or a column;
- the cascade of `checkMatches`: mark, clear and score 10 points per cell,
  let each column fall, refill the holes, and repeat;
- the constructor's fairness pass: deal boards until one has no match, then
  probe swaps (undoing each one) to find a playable move, and force one
  swap if the search finds none;
- the engine step of `mouseReleased`: an adjacent swap is committed and
  resolved, and any other pair is ignored.

Everything is functional. A board is `seq<seq<Option<Colour>>>` with the top
row first. `None` stands for `null`. The game's `Point(x, y)` keeps
`x` as the column and `y` as the row, so cell `b[p.y][p.x]` is the one at
point `p`. The marking, removal and drop loops of the game are methods that
mirror those loops: `ComputeMask`, `RemoveMatched`, `DropColumn` and
`DropTiles`. Each is proved equal to a reference definition: `Marked`,
`Clear`, `Compact` and `Drop`. `CheckMatches` is a method that mirrors the
game's recursion and is proved equal to `Cascade`. The refill, the deal,
`hasInitialMatches` and the probe search are recursive functions or
predicates. Their meaning is pinned by `RefillKeeps` and `RefillPlaces`, by the
round trip of `Deal`, by `InitialMatchesIffMarked` and by the ensures of
`ScanFrom`.

Randomness is modelled as an explicit supply of colours, a `seq<Colour>`. The
supply is consumed in the order the game draws from `java.util.Random`, which
is row-major. Each cascade pass draws at least one colour, and each deal draws
64. So the length of the supply bounds both the cascade and the reroll loop,
and no fuel is needed. When the supply runs out, the outcome is `Starved`.
The refill reads the supply by position: `RefillRow` and `RefillFrom` start
at a position `k`, and `Refill` starts at 0 and returns the colours it did not draw.
The game's random source never runs out.

Modules: `Wrappers` (Option), `Board` (cells, grid, points, swap,
adjacency), `Matches` (runs, mask, `hasInitialMatches`), `Gravity`
(column compaction, the drop), `Engine` (removal and score, refill,
the cascade, the swap attempt), `Setup` (deal, reroll, probes, the
constructor), and `Scenarios` (small worked boards).

Some behaviours of the code are easy to misread. The model follows the code:

- The forced fallback swap is `swapTiles(new Point(0, 0), new Point(0, 1))`.
  Since `x` is the column, it exchanges (row 0, column 0) with (row 1,
  column 0). This is a vertical pair, not the two leftmost cells of the top
  row (`Setup.FORCED_A`, `Setup.FORCED_B`).
- `hasInitialMatches` compares cells with `==` and has no null test, so
  three empty cells would count. It is guaranteed to agree with the removal mask only on
  boards with no empty cell. It is only ever called on such boards
  (`Matches.InitialMatchesIffMarked`, `Matches.InitialMatchesCountsEmptyCells`).
- Probing only up and left is not complete. The class comment
  (`Match3Game.java:16`) asks that at least one match can be triggered by a
  drag. But `canTriggerMatch` probes "up" only when `0 < row < ROWS - 1`
  and "left" only when `0 < col < COLS - 1`. So the swap of the two bottom
  rows and the swap of the two rightmost columns are never tried
  (`Setup.ProbeCoverage`). The search can therefore miss a move that exists
  and fall back to the forced swap. The model keeps the code's behaviour.
- A point outside the grid makes `swapTiles` throw before it writes any cell.
  The model returns `OutOfBounds` with the board untouched.

## Model

| member | source | states |
|---|---|---|
| Board.IsValidSwap | src/main/java/games/Match3Game.java:140-142 | A swap is legal exactly when q is one of the four neighbours of p, i.e. at Manhattan distance exactly 1. Diagonal, distant and identical pairs are refused. |
| Board.Swap | src/main/java/games/Match3Game.java:144-148 | The two cells exchange their values. Every other cell keeps its value, and the shape is unchanged. |
| Board.SwapTwice | src/main/java/games/Match3Game.java:144-148 | Swapping the same pair twice restores the original board. |
| Board.SwapSymmetric | src/main/java/games/Match3Game.java:144-148 | Swapping (p, q) and swapping (q, p) give the same board. |
| Matches.ComputeMask | src/main/java/games/Match3Game.java:156-180 | A cell is marked exactly when some horizontal or vertical window of three equal, non-empty cells covers it. |
| Matches.HasInitialMatches | src/main/java/games/Match3Game.java:56-72 | Three equal cells in a row or column, compared with == and without a null test. |
| Matches.InitialMatchesIffMarked | src/main/java/games/Match3Game.java:56-72 | On a board with no empty cell, hasInitialMatches holds exactly when the removal mask is non-empty. |
| Matches.InitialMatchesCountsEmptyCells | src/main/java/games/Match3Game.java:56-72 | Three empty cells in a row satisfy hasInitialMatches (it has no null test) but mark nothing. |
| Matches.MarkedCellsSize | src/main/java/games/Match3Game.java:156-193 | Some cell is marked exactly when the set of marked positions is non-empty. A non-empty set has at least three positions. |
| Engine.RemoveMatched | src/main/java/games/Match3Game.java:182-193 | Marked cells become empty and all others keep their value. The score grows by 10 per marked position, each position counted once. found holds exactly when something was marked. |
| Engine.MarkAndRemove | src/main/java/games/Match3Game.java:156-193 | Marking then removing yields the reference cleared board and adds 10 per marked cell. When nothing is marked, the board is untouched. |
| Engine.RemovalOfMask | src/main/java/games/Match3Game.java:156-193 | Removal driven by the detector's mask empties exactly the marked cells, counts exactly the marked positions, and leaves the board unchanged when nothing is marked. |
| Gravity.DropColumn | src/main/java/games/Match3Game.java:199-209 | The column keeps its length. Its empty cells all end above its tiles, and the tiles keep their top-to-bottom order. |
| Gravity.CompactIsStable | src/main/java/games/Match3Game.java:198-210 | The reference compaction keeps the column's length, puts the empties on top, and keeps the tiles in order, so the tile count is unchanged. |
| Gravity.PackedIsCompact | src/main/java/games/Match3Game.java:198-210 | A column whose empties are already on top is its own compaction. |
| Gravity.CompactCharacterised | src/main/java/games/Match3Game.java:198-210 | A column is the compaction of s exactly when it has the length of s, its empties are on top, and it holds the tiles of s in order. |
| Gravity.DropTiles | src/main/java/games/Match3Game.java:198-210 | Running the drop loop column by column gives the reference drop, which compacts every column. |
| Gravity.DropPerColumn | src/main/java/games/Match3Game.java:198-210 | Each column of the dropped board is packed and holds that column's tiles in order. It depends only on that column. |
| Gravity.DropKeepsHole | src/main/java/games/Match3Game.java:198-210 | The drop never fills a hole: a board with an empty cell still has one afterwards. |
| Gravity.DropFull | src/main/java/games/Match3Game.java:198-210 | On a full board the drop moves nothing. |
| Engine.HolesCount | src/main/java/games/Match3Game.java:212-221 | A board has an empty cell exactly when its hole count is positive. |
| Engine.RefillRow | src/main/java/games/Match3Game.java:215-221 | The row refill, drawing from position k of the supply on, succeeds exactly when the supply has one colour per hole from k on. The row keeps its length. |
| Engine.RefillRowKeeps | src/main/java/games/Match3Game.java:215-221 | A refilled row has no empty cell, and each of its non-empty cells is unchanged. |
| Engine.RefillRowPlaces | src/main/java/games/Match3Game.java:215-221 | Left to right: the empty cell at column j takes the colour at position k plus the number of empty cells to its left. |
| Engine.RefillFrom | src/main/java/games/Match3Game.java:212-221 | The board refill, drawing from position k on, succeeds exactly when the supply has a colour for every hole from k on. It keeps the number of rows. |
| Engine.Refill | src/main/java/games/Match3Game.java:212-221 | The refill succeeds exactly when the supply has a colour for every hole on the board. Exactly that many colours are drawn from the front of the supply, and the rest are left. |
| Engine.RefillKeeps | src/main/java/games/Match3Game.java:212-221 | After the refill no cell is empty, every row keeps its length, and every non-empty cell is unchanged. |
| Engine.RefillRows | src/main/java/games/Match3Game.java:212-221 | Row i is refilled as the row refill does, starting after the colours drawn for the holes of the rows above it. |
| Engine.RefillPlaces | src/main/java/games/Match3Game.java:212-221 | Row-major order: the empty cell at (i, j) takes the colour whose index is the number of empty cells in the rows above it plus those to its left. That index is below the board's hole count, so only the first Holes(b) colours are read. |
| Engine.PassLeavesHole | src/main/java/games/Match3Game.java:183-210 | A pass that clears something clears at least three cells and, after the drop, still leaves a hole to refill. |
| Engine.Pass | src/main/java/games/Match3Game.java:183-221 | One pass keeps the board a grid. It fails exactly when refilling the cleared and dropped board fails, and otherwise draws at least one colour from the front of the supply and leaves the rest. |
| Engine.PassOutcome | src/main/java/games/Match3Game.java:183-221 | After a pass the board is full and has its old shape, and the score has grown by 10 per marked cell, so by at least 30. |
| Engine.CascadeSettles | src/main/java/games/Match3Game.java:155-228 | The cascade never reaches outside the grid. When it settles no cell is marked, the board keeps its shape, and it is full unless nothing was marked, in which case board and score are returned untouched. |
| Engine.CascadeGains | src/main/java/games/Match3Game.java:155-228 | When the cascade settles the score has not dropped, and it has grown by at least 30 when something was marked. |
| Engine.CascadeSuffix | src/main/java/games/Match3Game.java:212-228 | The colours a settled cascade leaves are what remains of the supply after the colours it drew from the front. |
| Engine.CascadeScore | src/main/java/games/Match3Game.java:184-193 | Over a whole cascade, the score grows by exactly 10 times the number of cells cleared, summed pass by pass. |
| Engine.CascadeStep | src/main/java/games/Match3Game.java:195-225 | One step of the cascade is starved exactly when the refill of the dropped board is. Otherwise it continues from the refilled board, scored 10 per marked cell, on a shorter supply. |
| Engine.CheckMatches | src/main/java/games/Match3Game.java:155-228 | The game's mark, remove, drop, refill and recurse sequence computes exactly the reference cascade. |
| Engine.AttemptSwap | src/main/java/games/Match3Game.java:239-251 | A non-adjacent pair leaves board and score unchanged. An out-of-bounds point fails with the board untouched. An adjacent pair is swapped and the result is exactly the cascade from the swapped board, so the swap stays committed even when it makes no match. After resolution no cell is marked, the score has grown by exactly 10 per cleared cell (at least 30 when the swap made a match), and a full board stays full. |
| Setup.Deal | src/main/java/games/Match3Game.java:45-54 | The deal fills rows × cols cells and draws exactly rows × cols colours. Reading the board back in row-major order, followed by the undrawn colours, gives the supply again. |
| Setup.Reroll | src/main/java/games/Match3Game.java:35-40 | The board kept by the reroll loop is 8 × 8, full, and has no three equal cells in a row or column. |
| Setup.CanTriggerMatch | src/main/java/games/Match3Game.java:86-105 | On every path the probe returns the board exactly as it was. It answers true exactly when the up swap (only for 0 < row < ROWS-1) or the left swap (only for 0 < col < COLS-1) leaves three equal cells in a line on the swapped board. On a match-free board, the only kind the game probes, that means the swap creates them. |
| Setup.ProbeCoverage | src/main/java/games/Match3Game.java:86-105 | A vertical swap is probed exactly when its lower cell is above the bottom row. A horizontal swap is probed exactly when its right cell is left of the rightmost column. |
| Setup.ScanFrom | src/main/java/games/Match3Game.java:75-81 | The row-major search leaves the board unchanged. It answers whether some probe at or after the start position succeeds. |
| Setup.EnsureAtLeastOneMove | src/main/java/games/Match3Game.java:74-84 | The board is unchanged when some probe succeeds. Otherwise it is the board with (row 0, column 0) and (row 1, column 0) swapped. |
| Setup.NewGame | src/main/java/games/Match3Game.java:35-43 | A new game scores 0 and is 8 × 8 and full. Either its board has no match and a probe finds a move, or undoing the forced swap gives a match-free board on which no probe found a move. |
| Scenarios.OneRowPass | src/main/java/games/Match3Game.java:155-228 | In the row Red, Red, Blue, Blue, Blue exactly the blues are marked. One pass keeps the reds, puts three fresh colours where the blues were, and scores 30. |
| Scenarios.CornerCountsOnce | src/main/java/games/Match3Game.java:156-193 | In an L of reds, the corner belongs to both runs but is cleared and scored once: five cells, 50 points. |

## Left out

- `paintComponent` and `repaint`: Swing rendering, with no engine behaviour.
- `mousePressed`, `mouseReleased`'s pixel-to-cell division, and the `selectedTile` / `dragTile` fields: AWT event handling. Only the "if adjacent, swap and resolve" step is modelled, as `Engine.AttemptSwap`.
- The other mouse listener stubs, `main` and the `JFrame` setup: user-interface lifecycle.
- `java.util.Random`: it is replaced by an explicit supply of colours. Uniformity of the draws is not modelled.
- Termination with an unbounded random source is not modelled: every loop that draws colours is bounded by the length of the supply instead.
- Engine.RemoveMatched: the score is an unbounded integer. The game's 32-bit `int` would wrap only after about 214 million cleared cells.
- Board.IsValidSwap: coordinates are unbounded integers. The overflow of `Math.abs` on extreme `int` differences is not modelled, because points always come from the grid.
- Setup.EnsureAtLeastOneMove: the forced fallback swap is modelled as written. Nothing is claimed about it creating a move or keeping the board free of matches, because the code promises neither.

=== FILE: board.dfy ===
/**
 The grid model of the match-3 board engine: palette colours, cells that may be
 empty, the rectangular board, positions, and the unchecked swap primitive.
 */
module Board {
  import opened Wrappers

  /** The five palette colours the game draws from. */
  datatype Colour = Red | Green | Blue | Yellow | Orange

  /** A cell holds a colour, or is empty (`null`) between removal and refill. */
  type Cell = Option<Colour>

  /** Rows of cells, top row first, so a cell is `b[row][col]`. */
  type Board = seq<seq<Cell>>

  /** Side lengths of the game's board. */
  const ROWS: nat := 8
  const COLS: nat := 8

  /** A position as the game writes it: `x` is the column and `y` the row. */
  datatype Point = Point(x: int, y: int)

  /** A rectangular board with at least one row and one column. */
  predicate Grid(b: Board) {
    && |b| >= 1
    && |b[0]| >= 1
    && forall i | 0 <= i < |b| :: |b[i]| == |b[0]|
  }

  function Cols(b: Board): nat
    requires Grid(b)
  {
    |b[0]|
  }

  /** Same number of rows, and the same length row by row. */
  predicate SameShape(a: Board, b: Board) {
    |a| == |b| && forall i | 0 <= i < |a| :: |a[i]| == |b[i]|
  }

  predicate InBounds(b: Board, p: Point) {
    0 <= p.y < |b| && 0 <= p.x < |b[p.y]|
  }

  function At(b: Board, p: Point): Cell
    requires InBounds(b, p)
  {
    b[p.y][p.x]
  }

  /** No cell is empty. */
  predicate Full(b: Board) {
    forall i, j | 0 <= i < |b| && 0 <= j < |b[i]| :: b[i][j].Some?
  }

  /** Some cell is empty. */
  predicate HasHole(b: Board) {
    exists i, j | 0 <= i < |b| && 0 <= j < |b[i]| :: b[i][j].None?
  }

  /** The cells of column `j`, top to bottom. */
  function Column(b: Board, j: nat): (c: seq<Cell>)
    requires Grid(b) && j < Cols(b)
    ensures |c| == |b|
    ensures forall i | 0 <= i < |b| :: c[i] == b[i][j]
  {
    seq(|b|, i requires 0 <= i < |b| => b[i][j])
  }

  /** Writes one cell; every other cell keeps its value. */
  function Put(b: Board, p: Point, v: Cell): (r: Board)
    requires InBounds(b, p)
    ensures SameShape(r, b)
    ensures At(r, p) == v
    ensures forall i, j | 0 <= i < |b| && 0 <= j < |b[i]| && Point(j, i) != p :: r[i][j] == b[i][j]
  {
    b[p.y := b[p.y][p.x := v]]
  }

  /**
   Exchanges the values of two cells (Match3Game.swapTiles). It validates
   nothing beyond the bounds the game's arrays impose: the two points may be
   equal or far apart.
   */
  function Swap(b: Board, p: Point, q: Point): (r: Board)
    requires InBounds(b, p) && InBounds(b, q)
    ensures SameShape(r, b) && (Grid(b) ==> Grid(r))
    ensures At(r, p) == At(b, q) && At(r, q) == At(b, p)
    ensures forall i, j | 0 <= i < |b| && 0 <= j < |b[i]| && Point(j, i) != p && Point(j, i) != q ::
              r[i][j] == b[i][j]
  {
    var t := At(b, p);
    Put(Put(b, p, At(b, q)), q, t)
  }

  /** Two boards of the same shape that agree on every cell are equal. */
  lemma CellwiseEqual(a: Board, b: Board)
    requires SameShape(a, b)
    requires forall i, j | 0 <= i < |a| && 0 <= j < |a[i]| :: a[i][j] == b[i][j]
    ensures a == b
  {
    forall i | 0 <= i < |a|
      ensures a[i] == b[i]
    {
      assert forall j | 0 <= j < |a[i]| :: a[i][j] == b[i][j];
    }
  }

  /** Swapping the same pair twice restores the board: the probe-and-undo step relies on this. */
  lemma SwapTwice(b: Board, p: Point, q: Point)
    requires InBounds(b, p) && InBounds(b, q)
    ensures Swap(Swap(b, p, q), p, q) == b
  {
    var s := Swap(b, p, q);
    var t := Swap(s, p, q);
    forall i, j | 0 <= i < |t| && 0 <= j < |t[i]|
      ensures t[i][j] == b[i][j]
    {
      if Point(j, i) == p {
      } else if Point(j, i) == q {
      }
    }
    CellwiseEqual(t, b);
  }

  /** The order of the two points does not matter. */
  lemma SwapSymmetric(b: Board, p: Point, q: Point)
    requires InBounds(b, p) && InBounds(b, q)
    ensures Swap(b, p, q) == Swap(b, q, p)
  {
    var s := Swap(b, p, q);
    var t := Swap(b, q, p);
    forall i, j | 0 <= i < |s| && 0 <= j < |s[i]|
      ensures s[i][j] == t[i][j]
    {
      if Point(j, i) == p {
      } else if Point(j, i) == q {
      }
    }
    CellwiseEqual(s, t);
  }

  /** Swapping keeps a full board full. */
  lemma SwapKeepsFull(b: Board, p: Point, q: Point)
    requires InBounds(b, p) && InBounds(b, q)
    ensures Full(b) ==> Full(Swap(b, p, q))
  {
  }

  function Abs(n: int): nat {
    if n < 0 then -n else n
  }

  /** The four points one step left, right, up and down of `p`. */
  function Neighbours(p: Point): set<Point> {
    {Point(p.x - 1, p.y), Point(p.x + 1, p.y), Point(p.x, p.y - 1), Point(p.x, p.y + 1)}
  }

  /**
   Swap legality (Match3Game.isValidSwap): the points are 4-adjacent, i.e. at
   Manhattan distance exactly 1, so diagonal and distant pairs are refused.
   */
  function IsValidSwap(p: Point, q: Point): (ok: bool)
    ensures ok <==> q in Neighbours(p)
    ensures ok <==> Abs(p.x - q.x) + Abs(p.y - q.y) == 1
  {
    (Abs(p.x - q.x) == 1 && p.y == q.y) || (Abs(p.y - q.y) == 1 && p.x == q.x)
  }
}

=== FILE: engine.dfy ===
/**
 The resolver of the board engine: removal with scoring, refill from a supply
 of fresh colours, the cascade of Match3Game.checkMatches, and the player's
 swap attempt (the engine step inside Match3Game.mouseReleased).
 */
module Engine {
  import opened Wrappers
  import opened Board
  import opened Matches
  import opened Gravity

  /** The engine's state: the board and the score. */
  datatype Game = Game(board: Board, score: int)

  /**
   How an engine step ends. `Settled` carries the new state and the colours not
   yet drawn; `Starved` means the supply of fresh colours ran out (the game's
   random source never does); `OutOfBounds` is an access outside the grid, which
   the game reports by throwing before any cell is written.
   */
  datatype Outcome = Settled(game: Game, rest: seq<Colour>) | Starved | OutOfBounds

  /** The positions a mask marks. */
  function TrueCells(m: seq<seq<bool>>): set<(int, int)> {
    set i, j | 0 <= i < |m| && 0 <= j < |m[i]| && m[i][j] :: (i, j)
  }

  /** The marked positions in rows before `row`, and in row `row` before column `col`. */
  function TrueCellsBefore(m: seq<seq<bool>>, row: int, col: int): set<(int, int)> {
    set i, j | 0 <= i < |m| && 0 <= j < |m[i]| && m[i][j] && (i < row || (i == row && j < col)) :: (i, j)
  }

  /**
   The removal phase of Match3Game.checkMatches: every marked cell is emptied
   and earns 10 points; `found` tells whether anything was removed. A cell
   earns its points once however many runs cover it.
   */
  method RemoveMatched(b: Board, m: seq<seq<bool>>, score: int) returns (r: Board, score': int, found: bool)
    requires Grid(b) && MaskShape(m, |b|, Cols(b))
    ensures SameShape(r, b)
    ensures forall i, j | 0 <= i < |b| && 0 <= j < |b[i]| :: r[i][j] == if m[i][j] then None else b[i][j]
    ensures score' == score + 10 * |TrueCells(m)|
    ensures found <==> TrueCells(m) != {}
  {
    r, score', found := b, score, false;
    CellwiseEqual(r, ClearedBefore(b, m, 0, 0));
    var rows: int := |b|;
    var row := 0;
    while row < rows
      invariant 0 <= row <= rows
      invariant r == ClearedBefore(b, m, row, 0)
      invariant score' == score + 10 * |TrueCellsBefore(m, row, 0)|
      invariant found <==> score' > score
    {
      r, score', found := RemoveRow(b, m, row, r, score, score', found);
      TrueCellsNextRow(m, row);
      ClearedNextRow(b, m, row);
      row := row + 1;
    }
    TrueCellsAll(m);
    ClearedAll(b, m);
  }

  /** One row of the removal loop: the row's marked cells are emptied and scored. */
  method RemoveRow(b: Board, m: seq<seq<bool>>, row: int, r0: Board, score: int, score0: int, found0: bool)
    returns (r: Board, score': int, found: bool)
    requires Grid(b) && MaskShape(m, |b|, Cols(b)) && 0 <= row < |b|
    requires r0 == ClearedBefore(b, m, row, 0)
    requires score0 == score + 10 * |TrueCellsBefore(m, row, 0)|
    requires found0 <==> score0 > score
    ensures r == ClearedBefore(b, m, row, Cols(b))
    ensures score' == score + 10 * |TrueCellsBefore(m, row, Cols(b))|
    ensures found <==> score' > score
  {
    r, score', found := r0, score0, found0;
    var cols: int := Cols(b);
    var col := 0;
    while col < cols
      invariant 0 <= col <= cols
      invariant r == ClearedBefore(b, m, row, col)
      invariant score' == score + 10 * |TrueCellsBefore(m, row, col)|
      invariant found <==> score' > score
    {
      r, score', found := RemoveCell(b, m, row, col, r, score, score', found);
      col := col + 1;
    }
  }

  /** One cell of the removal loop: a marked cell is emptied and earns 10 points. */
  method RemoveCell(b: Board, m: seq<seq<bool>>, row: int, col: int, r0: Board, score: int, score0: int, found0: bool)
    returns (r: Board, score': int, found: bool)
    requires Grid(b) && MaskShape(m, |b|, Cols(b)) && 0 <= row < |b| && 0 <= col < Cols(b)
    requires r0 == ClearedBefore(b, m, row, col)
    requires score0 == score + 10 * |TrueCellsBefore(m, row, col)|
    requires found0 <==> score0 > score
    ensures r == ClearedBefore(b, m, row, col + 1)
    ensures score' == score + 10 * |TrueCellsBefore(m, row, col + 1)|
    ensures found <==> score' > score
  {
    TrueCellsStep(m, row, col);
    ClearedStep(b, m, row, col);
    r, score', found := r0, score0, found0;
    if m[row][col] {
      r := r[row := r[row][col := None]];
      found := true;
      score' := score' + 10;
    }
  }

  /** The board with the marks in rows before `row`, and in row `row` before column `col`, emptied. */
  function ClearedBefore(b: Board, m: seq<seq<bool>>, row: int, col: int): (r: Board)
    requires Grid(b) && MaskShape(m, |b|, Cols(b))
    ensures SameShape(r, b)
  {
    seq(|b|, i requires 0 <= i < |b| =>
      seq(Cols(b), j requires 0 <= j < Cols(b) =>
        if m[i][j] && (i < row || (i == row && j < col)) then None else b[i][j]))
  }

  lemma ClearedStep(b: Board, m: seq<seq<bool>>, row: nat, col: nat)
    requires Grid(b) && MaskShape(m, |b|, Cols(b)) && row < |b| && col < Cols(b)
    ensures var r := ClearedBefore(b, m, row, col);
            ClearedBefore(b, m, row, col + 1) == if m[row][col] then r[row := r[row][col := None]] else r
  {
    var r := ClearedBefore(b, m, row, col);
    var r' := if m[row][col] then r[row := r[row][col := None]] else r;
    CellwiseEqual(ClearedBefore(b, m, row, col + 1), r');
  }

  lemma ClearedNextRow(b: Board, m: seq<seq<bool>>, row: nat)
    requires Grid(b) && MaskShape(m, |b|, Cols(b)) && row < |b|
    ensures ClearedBefore(b, m, row + 1, 0) == ClearedBefore(b, m, row, Cols(b))
  {
    CellwiseEqual(ClearedBefore(b, m, row + 1, 0), ClearedBefore(b, m, row, Cols(b)));
  }

  lemma ClearedAll(b: Board, m: seq<seq<bool>>)
    requires Grid(b) && MaskShape(m, |b|, Cols(b))
    ensures var r := ClearedBefore(b, m, |b|, 0);
            forall i, j | 0 <= i < |b| && 0 <= j < |b[i]| :: r[i][j] == if m[i][j] then None else b[i][j]
  {
  }

  /** Visiting cell (row, col) adds it to the visited marks exactly when it is marked. */
  lemma TrueCellsStep(m: seq<seq<bool>>, row: nat, col: nat)
    requires row < |m| && col < |m[row]|
    ensures (row, col) !in TrueCellsBefore(m, row, col)
    ensures TrueCellsBefore(m, row, col + 1) ==
            TrueCellsBefore(m, row, col) + if m[row][col] then {(row, col)} else {}
    ensures |TrueCellsBefore(m, row, col + 1)| == |TrueCellsBefore(m, row, col)| + if m[row][col] then 1 else 0
  {
    assert TrueCellsBefore(m, row, col + 1) ==
           TrueCellsBefore(m, row, col) + if m[row][col] then {(row, col)} else {};
  }

  lemma TrueCellsNextRow(m: seq<seq<bool>>, row: nat)
    requires row < |m|
    ensures TrueCellsBefore(m, row + 1, 0) == TrueCellsBefore(m, row, |m[row]|)
  {
  }

  lemma TrueCellsAll(m: seq<seq<bool>>)
    ensures TrueCells(m) == TrueCellsBefore(m, |m|, 0)
  {
  }

  /** The board after one removal: every marked cell emptied. */
  function Clear(b: Board): (r: Board)
    requires Grid(b)
    ensures Grid(r) && SameShape(r, b)
  {
    seq(|b|, i requires 0 <= i < |b| =>
      seq(Cols(b), j requires 0 <= j < Cols(b) => if Marked(b, i, j) then None else b[i][j]))
  }

  /**
   Removal driven by the detector's mask is the reference removal: the board
   becomes `Clear(b)`, the cells counted are the marked cells, something is
   removed exactly when some cell is marked, and otherwise the board is
   untouched.
   */
  lemma RemovalOfMask(b: Board, m: seq<seq<bool>>, r: Board)
    requires Grid(b) && MaskShape(m, |b|, Cols(b)) && SameShape(r, b)
    requires forall i, j | 0 <= i < |b| && 0 <= j < Cols(b) :: m[i][j] <==> Marked(b, i, j)
    requires forall i, j | 0 <= i < |b| && 0 <= j < |b[i]| :: r[i][j] == if m[i][j] then None else b[i][j]
    ensures r == Clear(b)
    ensures TrueCells(m) == MarkedCells(b)
    ensures AnyMarked(b) <==> TrueCells(m) != {}
    ensures !AnyMarked(b) ==> r == b
  {
    MarkedCellsSize(b);
    CellwiseEqual(r, Clear(b));
    if !AnyMarked(b) {
      CellwiseEqual(r, b);
    }
  }

  /** Removing a non-empty mask leaves a hole. */
  lemma ClearLeavesHole(b: Board)
    requires Grid(b) && AnyMarked(b)
    ensures HasHole(Clear(b))
  {
    var i, j :| 0 <= i < |b| && 0 <= j < |b[i]| && Marked(b, i, j);
    assert Clear(b)[i][j].None?;
  }

  /** Number of empty cells on the board. */
  function Holes(b: Board): nat {
    if b == [] then 0 else EmptyCount(b[0]) + Holes(b[1..])
  }

  /** A board has an empty cell exactly when it counts one. */
  lemma {:induction false} HolesCount(b: Board)
    ensures HasHole(b) <==> Holes(b) > 0
    decreases |b|
  {
    if b != [] {
      HolesCount(b[1..]);
      if exists j | 0 <= j < |b[0]| :: b[0][j].None? {
        var j :| 0 <= j < |b[0]| && b[0][j].None?;
        HoleMeansFewerTiles(b[0], j);
      } else {
        TilesOfFull(b[0]);
        TilesOfLift(Tiles(b[0]));
      }
      if HasHole(b) {
        var i, j :| 0 <= i < |b| && 0 <= j < |b[i]| && b[i][j].None?;
        if i > 0 {
          assert b[1..][i - 1][j].None?;
        }
      }
      if HasHole(b[1..]) {
        var i, j :| 0 <= i < |b[1..]| && 0 <= j < |b[1..][i]| && b[1..][i][j].None?;
        assert b[i + 1][j].None?;
      }
    }
  }

  /**
   The refill loop of Match3Game.checkMatches on one row, drawing from the
   supply at index `k` on: every empty cell takes the next colour, left to
   right; other cells keep theirs. It fails exactly when the supply holds
   fewer colours from `k` on than the row has empty cells.
   */
  function RefillRow(s: seq<Cell>, supply: seq<Colour>, k: nat): (r: Option<seq<Cell>>)
    requires k <= |supply|
    ensures r.Some? <==> k + EmptyCount(s) <= |supply|
    ensures r.Some? ==> |r.value| == |s|
    decreases |s|
  {
    if s == [] then Some([])
    else
      EmptyCountFront(s);
      if s[0].Some? then
        match RefillRow(s[1..], supply, k)
        case None => None
        case Some(t) => Some([s[0]] + t)
      else if k >= |supply| then None
      else
        match RefillRow(s[1..], supply, k + 1)
        case None => None
        case Some(t) => Some([Some(supply[k])] + t)
  }

  /**
   The refill of the rows of `b` in row-major order, drawing from the supply
   at index `k` on. It fails exactly when the supply holds fewer colours from
   `k` on than the board has empty cells.
   */
  function RefillFrom(b: Board, supply: seq<Colour>, k: nat): (r: Option<Board>)
    requires k <= |supply|
    ensures r.Some? <==> k + Holes(b) <= |supply|
    ensures r.Some? ==> |r.value| == |b|
    decreases |b|
  {
    if b == [] then Some([])
    else
      match RefillRow(b[0], supply, k)
      case None => None
      case Some(row) =>
        match RefillFrom(b[1..], supply, k + EmptyCount(b[0]))
        case None => None
        case Some(rows) => Some([row] + rows)
  }

  /**
   The refill loop of Match3Game.checkMatches: every empty cell, in row-major
   order, takes the next colour of the supply; other cells keep theirs. It
   fails exactly when the supply holds fewer colours than the board has empty
   cells, and otherwise draws one colour per empty cell.
   */
  function Refill(b: Board, supply: seq<Colour>): (r: Option<(Board, seq<Colour>)>)
    ensures r.Some? <==> Holes(b) <= |supply|
    ensures r.Some? ==> |r.value.0| == |b| && |r.value.1| == |supply| - Holes(b)
    ensures r.Some? ==> r.value.1 == supply[Holes(b)..]
  {
    match RefillFrom(b, supply, 0)
    case None => None
    case Some(f) => Some((f, supply[Holes(b)..]))
  }

  /** The row refill handles the first cell, then the rest on the colours after the ones it drew. */
  lemma RefillRowFront(s: seq<Cell>, supply: seq<Colour>, k: nat)
    requires s != [] && k + EmptyCount(s) <= |supply|
    ensures EmptyCount(s) == EmptyCount(s[1..]) + if s[0].None? then 1 else 0
    ensures s[0].Some? ==> RefillRow(s, supply, k).value == [s[0]] + RefillRow(s[1..], supply, k).value
    ensures s[0].None? ==>
              && k < |supply|
              && RefillRow(s, supply, k).value == [Some(supply[k])] + RefillRow(s[1..], supply, k + 1).value
  {
    EmptyCountFront(s);
  }

  /** A refilled row has no empty cell, and its non-empty cells are the ones it had. */
  lemma {:induction false} RefillRowKeeps(s: seq<Cell>, supply: seq<Colour>, k: nat)
    requires k + EmptyCount(s) <= |supply|
    ensures var r := RefillRow(s, supply, k).value;
            forall j | 0 <= j < |s| :: r[j].Some? && (s[j].Some? ==> r[j] == s[j])
    decreases |s|
  {
    if s != [] {
      RefillRowFront(s, supply, k);
      var d := if s[0].None? then 1 else 0;
      RefillRowKeeps(s[1..], supply, k + d);
    }
  }

  /**
   Row-major order within a row: the empty cell at `j` takes the colour whose
   index is `k` plus the number of empty cells before it.
   */
  lemma {:induction false} RefillRowPlaces(s: seq<Cell>, supply: seq<Colour>, k: nat, j: int)
    requires k + EmptyCount(s) <= |supply| && 0 <= j < |s| && s[j].None?
    ensures k + EmptyCount(s[..j]) < |supply|
    ensures RefillRow(s, supply, k).value[j] == Some(supply[k + EmptyCount(s[..j])])
    decreases |s|
  {
    RefillRowFront(s, supply, k);
    if j == 0 {
      assert s[..0] == [];
      assert EmptyCount(s[..0]) == 0;
    } else {
      var d := if s[0].None? then 1 else 0;
      var p := s[..j];
      assert p[0] == s[0] && p[1..] == s[1..][..j - 1];
      EmptyCountFront(p);
      RefillRowPlaces(s[1..], supply, k + d, j - 1);
    }
  }

  /** The board refill handles the top row first, then the rows below on the colours after it. */
  lemma RefillFromFront(b: Board, supply: seq<Colour>, k: nat)
    requires b != [] && k + Holes(b) <= |supply|
    ensures k + EmptyCount(b[0]) + Holes(b[1..]) <= |supply|
    ensures RefillFrom(b, supply, k).value ==
            [RefillRow(b[0], supply, k).value] + RefillFrom(b[1..], supply, k + EmptyCount(b[0])).value
  {
  }

  /**
   After the refill no cell is empty, every row keeps its length, and every
   non-empty cell is the one it was.
   */
  lemma {:induction false} RefillKeeps(b: Board, supply: seq<Colour>, k: nat)
    requires k + Holes(b) <= |supply|
    ensures SameShape(RefillFrom(b, supply, k).value, b)
    ensures var r := RefillFrom(b, supply, k).value;
            forall i, j | 0 <= i < |b| && 0 <= j < |b[i]| :: r[i][j].Some? && (b[i][j].Some? ==> r[i][j] == b[i][j])
    decreases |b|
  {
    if b != [] {
      RefillFromFront(b, supply, k);
      RefillRowKeeps(b[0], supply, k);
      RefillKeeps(b[1..], supply, k + EmptyCount(b[0]));
      var r: Board, below: Board := RefillFrom(b, supply, k).value, RefillFrom(b[1..], supply, k + EmptyCount(b[0])).value;
      forall i, j | 0 <= i < |b| && 0 <= j < |b[i]|
        ensures r[i][j].Some? && (b[i][j].Some? ==> r[i][j] == b[i][j])
      {
        if i > 0 {
          assert r[i] == below[i - 1] && b[i] == b[1..][i - 1];
        }
      }
    }
  }

  /** Number of empty cells in the rows above row `i`. */
  function HolesAbove(b: Board, i: int): nat
    requires 0 <= i <= |b|
    decreases i
  {
    if i == 0 then 0 else EmptyCount(b[0]) + HolesAbove(b[1..], i - 1)
  }

  /**
   The board refill treats row `i` as the row refill does, starting after
   the colours drawn for the empty cells of the rows above it.
   */
  lemma {:induction false} RefillRows(b: Board, supply: seq<Colour>, k: nat, i: int)
    requires k + Holes(b) <= |supply| && 0 <= i < |b|
    ensures k + HolesAbove(b, i) + EmptyCount(b[i]) <= |supply|
    ensures RefillFrom(b, supply, k).value[i] == RefillRow(b[i], supply, k + HolesAbove(b, i)).value
    decreases i
  {
    if i == 0 {
      RefillFromFront(b, supply, k);
    } else {
      RefillFromBelow(b, supply, k, i);
      RefillRows(b[1..], supply, k + EmptyCount(b[0]), i - 1);
      assert b[1..][i - 1] == b[i];
    }
  }

  /** Row `i` below the top row is row `i - 1` of the refill of the rows below. */
  lemma RefillFromBelow(b: Board, supply: seq<Colour>, k: nat, i: int)
    requires k + Holes(b) <= |supply| && 1 <= i < |b|
    ensures k + EmptyCount(b[0]) + Holes(b[1..]) <= |supply|
    ensures RefillFrom(b, supply, k).value[i] == RefillFrom(b[1..], supply, k + EmptyCount(b[0])).value[i - 1]
  {
    RefillFromFront(b, supply, k);
  }

  /** The empty cells above row `i` and those of row `i` are among the board's. */
  lemma {:induction false} HolesAboveBound(b: Board, i: int)
    requires 0 <= i < |b|
    ensures HolesAbove(b, i) + EmptyCount(b[i]) <= Holes(b)
    decreases i
  {
    if i > 0 {
      HolesAboveBound(b[1..], i - 1);
      assert b[1..][i - 1] == b[i];
    }
  }

  /**
   Row-major order over the board: the empty cell at (i, j) takes the colour
   whose index is the number of empty cells in the rows above it plus those
   to its left in its own row. That index is below the board's hole count,
   so the refill reads only the first Holes(b) colours of the supply.
   */
  lemma RefillPlaces(b: Board, supply: seq<Colour>, i: int, j: int)
    requires Holes(b) <= |supply| && 0 <= i < |b| && 0 <= j < |b[i]| && b[i][j].None?
    ensures HolesAbove(b, i) + EmptyCount(b[i][..j]) < Holes(b)
    ensures var r := Refill(b, supply).value.0;
            j < |r[i]| && r[i][j] == Some(supply[HolesAbove(b, i) + EmptyCount(b[i][..j])])
  {
    HolesAboveBound(b, i);
    EmptyCountPrefix(b[i], j);
    RefillRows(b, supply, 0, i);
    RefillRowPlaces(b[i], supply, HolesAbove(b, i), j);
  }

  /**
   A pass that has something to clear removes at least three cells and, after
   the drop, leaves a hole for the refill to fill.
   */
  lemma PassLeavesHole(b: Board)
    requires Grid(b) && AnyMarked(b)
    ensures Holes(Drop(Clear(b))) > 0
    ensures |MarkedCells(b)| >= 3
  {
    ClearLeavesHole(b);
    DropKeepsHole(Clear(b));
    HolesCount(Drop(Clear(b)));
    MarkedCellsSize(b);
  }

  /** `u` is what is left of `s` after some colours were drawn from its front. */
  predicate IsSuffix(u: seq<Colour>, s: seq<Colour>) {
    |u| <= |s| && u == s[|s| - |u|..]
  }

  /**
   One pass of the cascade on a board with marked cells: clear and score
   them, drop, and refill from the supply. It fails only when the supply runs
   short; otherwise at least one colour is drawn.
   */
  function Pass(g: Game, supply: seq<Colour>): (r: Option<(Game, seq<Colour>)>)
    requires Grid(g.board) && AnyMarked(g.board)
    ensures r.Some? ==> Grid(r.value.0.board)
    ensures r.Some? ==> |r.value.1| < |supply| && IsSuffix(r.value.1, supply)
    ensures r.None? <==> Refill(Drop(Clear(g.board)), supply).None?
  {
    var dropped := Drop(Clear(g.board));
    PassLeavesHole(g.board);
    match Refill(dropped, supply)
    case None => None
    case Some((filled, rest)) =>
      RefillKeeps(dropped, supply, 0);
      Some((Game(filled, g.score + 10 * |MarkedCells(g.board)|), rest))
  }

  /**
   What one pass leaves: a full board of the same shape, and a score grown by
   10 per marked cell, so by at least 30.
   */
  lemma PassOutcome(g: Game, supply: seq<Colour>)
    requires Grid(g.board) && AnyMarked(g.board) && Pass(g, supply).Some?
    ensures var next := Pass(g, supply).value.0;
            && SameShape(next.board, g.board) && Full(next.board)
            && next.score == g.score + 10 * |MarkedCells(g.board)|
            && next.score >= g.score + 30
  {
    PassLeavesHole(g.board);
    RefillKeeps(Drop(Clear(g.board)), supply, 0);
  }

  /** A pass whose refill succeeds yields the refilled board, scored 10 per marked cell. */
  lemma PassOf(g: Game, supply: seq<Colour>)
    requires Grid(g.board) && AnyMarked(g.board)
    ensures var f := Refill(Drop(Clear(g.board)), supply);
            && (f.None? <==> Pass(g, supply).None?)
            && (f.Some? ==> Pass(g, supply).value.0 == Game(f.value.0, g.score + 10 * |MarkedCells(g.board)|))
            && (f.Some? ==> Pass(g, supply).value.1 == f.value.1)
  {
  }

  /**
   The reference cascade of Match3Game.checkMatches. While some cell is
   marked: clear the marked cells and score them, drop, refill from the
   supply, and look again. Each pass draws at least one colour, so the
   supply's length bounds the number of passes; CascadeSettles states where
   it stops.
   */
  function Cascade(g: Game, supply: seq<Colour>): Outcome
    requires Grid(g.board)
    decreases |supply|
  {
    if !AnyMarked(g.board) then Settled(g, supply)
    else
      match Pass(g, supply)
      case None => Starved
      case Some((next, rest)) => Cascade(next, rest)
  }

  /**
   Where the cascade stops. A board with nothing marked is returned
   untouched. When it settles no cell is marked and the board has its old
   shape, full unless nothing was marked. The first clause, that it never
   reports an access outside the grid, holds by construction and is stated
   for callers such as AttemptSwap.
   */
  lemma {:induction false} CascadeSettles(g: Game, supply: seq<Colour>)
    requires Grid(g.board)
    ensures !Cascade(g, supply).OutOfBounds?
    ensures !AnyMarked(g.board) ==> Cascade(g, supply) == Settled(g, supply)
    ensures var o := Cascade(g, supply);
            o.Settled? ==> Grid(o.game.board) && SameShape(o.game.board, g.board) && !AnyMarked(o.game.board)
    ensures var o := Cascade(g, supply);
            o.Settled? ==> Full(o.game.board) || o.game.board == g.board
    decreases |supply|
  {
    if AnyMarked(g.board) && Pass(g, supply).Some? {
      var p := Pass(g, supply).value;
      PassOutcome(g, supply);
      CascadeSettles(p.0, p.1);
      var o := Cascade(p.0, p.1);
      assert Cascade(g, supply) == o;
      if o.Settled? {
        SameShapeTrans(o.game.board, p.0.board, g.board);
      }
    }
  }

  /**
   The score a settled cascade reports never dropped, and grew by at least
   three cells' worth when something was marked.
   */
  lemma {:induction false} CascadeGains(g: Game, supply: seq<Colour>)
    requires Grid(g.board)
    ensures var o := Cascade(g, supply);
            o.Settled? ==> o.game.score >= g.score && (AnyMarked(g.board) ==> o.game.score >= g.score + 30)
    decreases |supply|
  {
    if AnyMarked(g.board) && Pass(g, supply).Some? {
      var p := Pass(g, supply).value;
      PassOutcome(g, supply);
      CascadeGains(p.0, p.1);
      assert Cascade(g, supply) == Cascade(p.0, p.1);
    }
  }

  /** The colours a settled cascade leaves are a suffix of its supply. */
  lemma {:induction false} CascadeSuffix(g: Game, supply: seq<Colour>)
    requires Grid(g.board)
    ensures var o := Cascade(g, supply);
            o.Settled? ==> IsSuffix(o.rest, supply)
    decreases |supply|
  {
    if AnyMarked(g.board) && Pass(g, supply).Some? {
      var p := Pass(g, supply).value;
      CascadeSuffix(p.0, p.1);
      var o := Cascade(p.0, p.1);
      assert Cascade(g, supply) == o;
      if o.Settled? {
        SuffixTrans(supply, p.1, o.rest);
      }
    } else if !AnyMarked(g.board) {
      assert supply[0..] == supply;
    }
  }

  lemma SameShapeTrans(a: Board, b: Board, c: Board)
    requires SameShape(a, b) && SameShape(b, c)
    ensures SameShape(a, c)
  {
  }

  lemma SuffixTrans(s: seq<Colour>, t: seq<Colour>, u: seq<Colour>)
    requires IsSuffix(t, s) && IsSuffix(u, t)
    ensures IsSuffix(u, s)
  {
  }

  /** The number of cells the cascade from `g` clears, summed over its passes. */
  function ClearedCount(g: Game, supply: seq<Colour>): nat
    requires Grid(g.board)
    decreases |supply|
  {
    if !AnyMarked(g.board) then 0
    else
      match Pass(g, supply)
      case None => |MarkedCells(g.board)|
      case Some((next, rest)) => |MarkedCells(g.board)| + ClearedCount(next, rest)
  }

  /**
   Over a whole cascade the score grows by exactly 10 points per cleared cell,
   each pass counting its cleared cells once.
   */
  lemma {:induction false} CascadeScore(g: Game, supply: seq<Colour>)
    requires Grid(g.board)
    ensures Cascade(g, supply).Settled? ==> Cascade(g, supply).game.score == g.score + 10 * ClearedCount(g, supply)
    decreases |supply|
  {
    if AnyMarked(g.board) && Pass(g, supply).Some? {
      var (next, rest) := Pass(g, supply).value;
      CascadeScore(next, rest);
    }
  }

  /**
   Match3Game.checkMatches as the game runs it: mark with the detector, clear
   and score, and only when something was cleared drop column by column,
   refill, and call itself again. It computes the reference cascade.
   */
  method CheckMatches(g: Game, supply: seq<Colour>) returns (o: Outcome)
    requires Grid(g.board)
    ensures o == Cascade(g, supply)
    decreases |supply|
  {
    var cleared, score, found := MarkAndRemove(g.board, g.score);
    if !found {
      return Settled(g, supply);
    }
    var dropped := DropTiles(cleared);
    var refilled := Refill(dropped, supply);
    CascadeStep(g, supply, dropped, score);
    if refilled.None? {
      return Starved;
    }
    var next := Game(refilled.value.0, score);
    o := CheckMatches(next, refilled.value.1);
  }

  /**
   One step of the reference cascade, stated through the refill of the
   dropped board: it is starved when the refill is, and otherwise continues
   from the refilled board with the pass's score on a shorter supply.
   */
  lemma CascadeStep(g: Game, supply: seq<Colour>, dropped: Board, score: int)
    requires Grid(g.board) && AnyMarked(g.board) && dropped == Drop(Clear(g.board))
    requires score == g.score + 10 * |MarkedCells(g.board)|
    ensures Refill(dropped, supply).None? ==> Cascade(g, supply) == Starved
    ensures Refill(dropped, supply).Some? ==>
              var next := Game(Refill(dropped, supply).value.0, score);
              && Grid(next.board)
              && |Refill(dropped, supply).value.1| < |supply|
              && Cascade(g, supply) == Cascade(next, Refill(dropped, supply).value.1)
  {
    PassOf(g, supply);
    var f := Refill(dropped, supply);
    if f.Some? {
      var next := Game(f.value.0, score);
      assert Pass(g, supply) == Some((next, f.value.1));
    }
  }

  /**
   The marking and removal phases of Match3Game.checkMatches together: the
   board loses exactly its marked cells, the score gains 10 per marked cell,
   and `found` tells whether any cell was marked.
   */
  method MarkAndRemove(b: Board, score: int) returns (cleared: Board, score': int, found: bool)
    requires Grid(b)
    ensures cleared == Clear(b)
    ensures score' == score + 10 * |MarkedCells(b)|
    ensures found <==> AnyMarked(b)
    ensures !found ==> cleared == b && score' == score
  {
    var m := ComputeMask(b);
    cleared, score', found := RemoveMatched(b, m, score);
    RemovalOfMask(b, m, cleared);
  }

  /**
   A player's swap attempt, the engine step of Match3Game.mouseReleased. A
   pair that is not 4-adjacent is refused and nothing changes. An adjacent
   pair is swapped and the cascade runs on the swapped board; the swap stays
   even when it makes no match. A point outside the grid fails before any cell
   is written. After an accepted swap no cell is marked, the score has grown
   by 10 per cleared cell, so by at least 30 when the swap made a match, and a
   full board stays full.
   */
  function AttemptSwap(g: Game, p: Point, q: Point, supply: seq<Colour>): (o: Outcome)
    requires Grid(g.board)
    ensures !IsValidSwap(p, q) ==> o == Settled(g, supply)
    ensures IsValidSwap(p, q) && !(InBounds(g.board, p) && InBounds(g.board, q)) ==> o == OutOfBounds
    ensures IsValidSwap(p, q) && InBounds(g.board, p) && InBounds(g.board, q) ==>
              var swapped := Swap(g.board, p, q);
              && o == Cascade(Game(swapped, g.score), supply)
              && (!AnyMarked(swapped) ==> o == Settled(Game(swapped, g.score), supply))
              && (o.Settled? ==> SameShape(o.game.board, g.board) && !AnyMarked(o.game.board))
              && (o.Settled? ==> o.game.score == g.score + 10 * ClearedCount(Game(swapped, g.score), supply))
              && (o.Settled? ==> o.game.score >= g.score)
              && (o.Settled? && AnyMarked(swapped) ==> o.game.score >= g.score + 30)
              && (o.Settled? && Full(g.board) ==> Full(o.game.board))
  {
    if !IsValidSwap(p, q) then Settled(g, supply)
    else if !(InBounds(g.board, p) && InBounds(g.board, q)) then OutOfBounds
    else
      var swapped := Game(Swap(g.board, p, q), g.score);
      CascadeSettles(swapped, supply);
      CascadeGains(swapped, supply);
      CascadeScore(swapped, supply);
      SwapKeepsFull(g.board, p, q);
      Cascade(swapped, supply)
  }
}

=== FILE: gravity.dfy ===
/**
 Gravity, the drop phase of Match3Game.checkMatches: in every column the
 remaining tiles fall to the bottom, keeping their top-to-bottom order, and the
 empty cells end up at the top.
 */
module Gravity {
  import opened Wrappers
  import opened Board

  /** The colours of the non-empty cells of a column, top to bottom. */
  function Tiles(s: seq<Cell>): (t: seq<Colour>)
    ensures |t| <= |s|
  {
    if s == [] then [] else (if s[0].Some? then [s[0].value] else []) + Tiles(s[1..])
  }

  /** Empties only above tiles: below a non-empty cell every cell is non-empty. */
  predicate Packed(s: seq<Cell>) {
    forall i, j | 0 <= i <= j < |s| :: s[i].Some? ==> s[j].Some?
  }

  /** `n` empty cells. */
  function Blanks(n: nat): (s: seq<Cell>)
    ensures |s| == n && forall i | 0 <= i < n :: s[i].None?
  {
    seq(n, _ => None)
  }

  /** A column holding exactly the colours `t`, top to bottom. */
  function Lift(t: seq<Colour>): (s: seq<Cell>)
    ensures |s| == |t| && forall i | 0 <= i < |t| :: s[i] == Some(t[i])
  {
    seq(|t|, i requires 0 <= i < |t| => Some(t[i]))
  }

  /** Number of empty cells in a column or a row. */
  function EmptyCount(s: seq<Cell>): nat {
    |s| - |Tiles(s)|
  }

  /** The first cell adds one to the empty count exactly when it is empty. */
  lemma EmptyCountFront(s: seq<Cell>)
    requires s != []
    ensures EmptyCount(s) == EmptyCount(s[1..]) + if s[0].None? then 1 else 0
  {
    assert s == [s[0]] + s[1..];
  }

  /** An empty cell at `j` has fewer empty cells before it than the whole sequence has. */
  lemma EmptyCountPrefix(s: seq<Cell>, j: int)
    requires 0 <= j < |s| && s[j].None?
    ensures EmptyCount(s[..j]) < EmptyCount(s)
  {
    assert s == s[..j] + s[j..];
    TilesAppend(s[..j], s[j..]);
    EmptyCountFront(s[j..]);
  }

  /** The reference compaction of a column: its tiles at the bottom, in order, under as many blanks as it had empty cells. */
  function Compact(s: seq<Cell>): (c: seq<Cell>)
    ensures |c| == |s|
  {
    Blanks(EmptyCount(s)) + Lift(Tiles(s))
  }

  lemma {:induction false} TilesAppend(a: seq<Cell>, b: seq<Cell>)
    ensures Tiles(a + b) == Tiles(a) + Tiles(b)
    decreases |a|
  {
    if a == [] {
      assert a + b == b;
    } else {
      var ab := a + b;
      assert ab[0] == a[0] && ab[1..] == a[1..] + b;
      TilesAppend(a[1..], b);
      var head := if a[0].Some? then [a[0].value] else [];
      calc {
        Tiles(ab);
        head + Tiles(a[1..] + b);
        head + (Tiles(a[1..]) + Tiles(b));
        (head + Tiles(a[1..])) + Tiles(b);
      }
    }
  }

  lemma {:induction false} TilesOfEmpties(s: seq<Cell>)
    requires forall i | 0 <= i < |s| :: s[i].None?
    ensures Tiles(s) == []
    decreases |s|
  {
    if s != [] {
      TilesOfEmpties(s[1..]);
    }
  }

  /** A column without empty cells is the lift of its tiles. */
  lemma TilesOfFull(s: seq<Cell>)
    requires forall i | 0 <= i < |s| :: s[i].Some?
    ensures Lift(Tiles(s)) == s
  {
    TilesOfFullAt(s);
    assert forall i | 0 <= i < |s| :: Lift(Tiles(s))[i] == s[i];
  }

  /** Without empty cells, the tiles are the cells' colours, one for one. */
  lemma {:induction false} TilesOfFullAt(s: seq<Cell>)
    requires forall i | 0 <= i < |s| :: s[i].Some?
    ensures |Tiles(s)| == |s| && forall i | 0 <= i < |s| :: Tiles(s)[i] == s[i].value
    decreases |s|
  {
    if s != [] {
      TilesOfFullAt(s[1..]);
      var t := Tiles(s[1..]);
      assert Tiles(s) == [s[0].value] + t;
      forall i | 1 <= i < |s|
        ensures Tiles(s)[i] == s[i].value
      {
        assert Tiles(s)[i] == t[i - 1] && s[1..][i - 1] == s[i];
      }
    }
  }

  lemma {:induction false} TilesOfLift(t: seq<Colour>)
    ensures Tiles(Lift(t)) == t
    decreases |t|
  {
    if t != [] {
      TilesOfLift(t[1..]);
      assert Lift(t)[1..] == Lift(t[1..]);
    }
  }

  /** A column with an empty cell has fewer tiles than cells. */
  lemma {:induction false} HoleMeansFewerTiles(s: seq<Cell>, k: nat)
    requires k < |s| && s[k].None?
    ensures |Tiles(s)| < |s|
    decreases |s|
  {
    if k > 0 {
      HoleMeansFewerTiles(s[1..], k - 1);
    }
  }

  /**
   Compaction is stable: the result has the column's length, is packed, and
   holds the same tiles in the same order, so the number of tiles is unchanged.
   */
  lemma CompactIsStable(s: seq<Cell>)
    ensures |Compact(s)| == |s|
    ensures Packed(Compact(s))
    ensures Tiles(Compact(s)) == Tiles(s)
  {
    var n := EmptyCount(s);
    TilesAppend(Blanks(n), Lift(Tiles(s)));
    TilesOfEmpties(Blanks(n));
    TilesOfLift(Tiles(s));
  }

  /** A packed column is its own compaction. */
  lemma {:induction false} PackedIsCompact(x: seq<Cell>)
    requires Packed(x)
    ensures x == Compact(x)
    decreases |x|
  {
    if x == [] {
    } else if x[0].Some? {
      TilesOfFull(x);
      assert Blanks(0) + Lift(Tiles(x)) == Lift(Tiles(x));
    } else {
      var y := x[1..];
      assert Packed(y);
      PackedIsCompact(y);
      assert x == [x[0]] + y;
      TilesAppend([x[0]], y);
      assert Tiles([x[0]]) == [];
      assert Blanks(|x| - |Tiles(x)|) == [None] + Blanks(|y| - |Tiles(y)|);
    }
  }

  /**
   Compaction is characterised by its three properties: a column is the
   compaction of `s` exactly when it has the length of `s`, is packed, and
   holds the tiles of `s` in order.
   */
  lemma CompactCharacterised(s: seq<Cell>, x: seq<Cell>)
    ensures x == Compact(s) <==> |x| == |s| && Packed(x) && Tiles(x) == Tiles(s)
  {
    CompactIsStable(s);
    if |x| == |s| && Packed(x) && Tiles(x) == Tiles(s) {
      PackedIsCompact(x);
    }
  }

  /** Moving the nearest tile above an empty cell down into it keeps the tiles and their order. */
  lemma MoveDownKeepsTiles(s: seq<Cell>, k: nat, row: nat)
    requires k < row < |s|
    requires s[k].Some?
    requires forall i | k < i <= row :: s[i].None?
    ensures Tiles(s[row := s[k]][k := None]) == Tiles(s)
  {
    var t := s[row := s[k]][k := None];
    var gap := s[k + 1..row];
    assert s == s[..k] + [s[k]] + gap + [s[row]] + s[row + 1..];
    assert t == s[..k] + [None] + gap + [s[k]] + s[row + 1..];
    TilesOfEmpties(gap);
    TilesAppend(s[..k] + [s[k]] + gap + [s[row]], s[row + 1..]);
    TilesAppend(s[..k] + [s[k]] + gap, [s[row]]);
    TilesAppend(s[..k] + [s[k]], gap);
    TilesAppend(s[..k], [s[k]]);
    TilesAppend(t[..k] + [None] + gap + [s[k]], s[row + 1..]);
    TilesAppend(s[..k] + [None] + gap, [s[k]]);
    TilesAppend(s[..k] + [None], gap);
    TilesAppend(s[..k], [None]);
    assert t[..k] == s[..k];
  }

  /**
   The drop loop of Match3Game.checkMatches for one column: from the bottom
   row upwards, an empty cell takes the nearest tile above it, which leaves
   that cell empty. The result is the stable compaction of the column.
   */
  method DropColumn(col: seq<Cell>) returns (out: seq<Cell>)
    ensures |out| == |col|
    ensures Packed(out)
    ensures Tiles(out) == Tiles(col)
  {
    out := col;
    var row := |col| - 1;
    while row >= 0
      invariant -1 <= row < |col|
      invariant |out| == |col|
      invariant Tiles(out) == Tiles(col)
      invariant forall i, j | row < i <= j < |out| :: out[i].Some? ==> out[j].Some?
      invariant (exists i | row < i < |out| :: out[i].None?) ==> forall i | 0 <= i <= row :: out[i].None?
    {
      if out[row].None? {
        var k := row - 1;
        while k >= 0 && out[k].None?
          invariant -1 <= k < row
          invariant forall i | k < i <= row :: out[i].None?
        {
          k := k - 1;
        }
        if k >= 0 {
          MoveDownKeepsTiles(out, k, row);
          out := out[row := out[k]][k := None];
        }
      }
      row := row - 1;
    }
  }

  /** Gravity on the whole board: every column replaced by its compaction. */
  function Drop(b: Board): (d: Board)
    requires Grid(b)
    ensures Grid(d) && SameShape(d, b)
  {
    seq(|b|, i requires 0 <= i < |b| =>
      seq(Cols(b), j requires 0 <= j < Cols(b) => Compact(Column(b, j))[i]))
  }

  /**
   Gravity acts on each column on its own: a column of the result is packed,
   holds the column's tiles in their order, and depends only on that column.
   */
  lemma DropPerColumn(b: Board, b': Board, j: nat)
    requires Grid(b) && Grid(b') && SameShape(b, b') && j < Cols(b)
    ensures Packed(Column(Drop(b), j))
    ensures Tiles(Column(Drop(b), j)) == Tiles(Column(b, j))
    ensures Column(b, j) == Column(b', j) ==> Column(Drop(b), j) == Column(Drop(b'), j)
  {
    assert Column(Drop(b), j) == Compact(Column(b, j));
    assert Column(Drop(b'), j) == Compact(Column(b', j));
    CompactIsStable(Column(b, j));
  }

  /** Gravity never fills a hole: a board with an empty cell still has one after the drop. */
  lemma DropKeepsHole(b: Board)
    requires Grid(b) && HasHole(b)
    ensures HasHole(Drop(b))
  {
    var i, j :| 0 <= i < |b| && 0 <= j < |b[i]| && b[i][j].None?;
    var c := Column(b, j);
    HoleMeansFewerTiles(c, i);
    assert Compact(c)[0].None?;
    assert Drop(b)[0][j].None?;
  }

  /** On a full board gravity moves nothing. */
  lemma DropFull(b: Board)
    requires Grid(b) && Full(b)
    ensures Drop(b) == b
  {
    var d := Drop(b);
    forall i, j | 0 <= i < |d| && 0 <= j < |d[i]|
      ensures d[i][j] == b[i][j]
    {
      var c := Column(b, j);
      TilesOfFull(c);
      assert Compact(c) == c;
    }
    CellwiseEqual(d, b);
  }

  /** Writes column `j` of the board. */
  function PutColumn(b: Board, j: nat, c: seq<Cell>): (r: Board)
    requires Grid(b) && j < Cols(b) && |c| == |b|
    ensures Grid(r) && SameShape(r, b)
    ensures Column(r, j) == c
    ensures forall k | 0 <= k < Cols(b) && k != j :: Column(r, k) == Column(b, k)
  {
    seq(|b|, i requires 0 <= i < |b| => b[i][j := c[i]])
  }

  /** The drop phase of Match3Game.checkMatches: each column, left to right, compacted by the drop loop. */
  method DropTiles(b: Board) returns (d: Board)
    requires Grid(b)
    ensures d == Drop(b)
  {
    d := b;
    var col := 0;
    while col < Cols(b)
      invariant 0 <= col <= Cols(b)
      invariant Grid(d) && SameShape(d, b)
      invariant forall k | 0 <= k < col :: Column(d, k) == Compact(Column(b, k))
      invariant forall k | col <= k < Cols(b) :: Column(d, k) == Column(b, k)
    {
      var c := DropColumn(Column(d, col));
      CompactCharacterised(Column(b, col), c);
      d := PutColumn(d, col, c);
      col := col + 1;
    }
    forall i, j | 0 <= i < |d| && 0 <= j < |d[i]|
      ensures d[i][j] == Drop(b)[i][j]
    {
      assert d[i][j] == Column(d, j)[i];
    }
    CellwiseEqual(d, Drop(b));
  }
}

=== FILE: matches.dfy ===
/**
 The match detector: runs of three equal non-empty cells in a row or a column,
 the removal mask built by Match3Game.checkMatches, and the construction-time
 test Match3Game.hasInitialMatches.
 */
module Matches {
  import opened Wrappers
  import opened Board

  /** Cells (i, c), (i, c+1), (i, c+2) hold the same colour. */
  predicate HRun(b: Board, i: int, c: int) {
    && 0 <= i < |b|
    && 0 <= c && c + 2 < |b[i]|
    && b[i][c].Some?
    && b[i][c] == b[i][c + 1]
    && b[i][c] == b[i][c + 2]
  }

  /** Cells (r, j), (r+1, j), (r+2, j) hold the same colour. */
  predicate VRun(b: Board, r: int, j: int) {
    && 0 <= r && r + 2 < |b|
    && 0 <= j && j < |b[r]| && j < |b[r + 1]| && j < |b[r + 2]|
    && b[r][j].Some?
    && b[r][j] == b[r + 1][j]
    && b[r][j] == b[r + 2][j]
  }

  /** Cell (i, j) lies inside a horizontal window of three. */
  predicate InHRun(b: Board, i: int, j: int) {
    exists c | j - 2 <= c <= j :: HRun(b, i, c)
  }

  /** Cell (i, j) lies inside a vertical window of three. */
  predicate InVRun(b: Board, i: int, j: int) {
    exists r | i - 2 <= r <= i :: VRun(b, r, j)
  }

  /** Cell (i, j) is removed by the current pass. */
  predicate Marked(b: Board, i: int, j: int) {
    InHRun(b, i, j) || InVRun(b, i, j)
  }

  /** The positions (row, column) a removal pass clears. */
  function MarkedCells(b: Board): set<(int, int)> {
    set i, j | 0 <= i < |b| && 0 <= j < |b[i]| && Marked(b, i, j) :: (i, j)
  }

  /** Some cell is marked. */
  predicate AnyMarked(b: Board) {
    exists i, j | 0 <= i < |b| && 0 <= j < |b[i]| :: Marked(b, i, j)
  }

  /**
   The test Match3Game.hasInitialMatches performs: three equal cells in a row
   or a column, compared with `==` and without an emptiness test, so three
   empty cells would count as well.
   */
  predicate HasInitialMatches(b: Board)
    requires Grid(b)
  {
    || (exists i, c | 0 <= i < |b| && 0 <= c && c + 2 < Cols(b) :: SameInRow(b, i, c))
    || (exists r, j | 0 <= r && r + 2 < |b| && 0 <= j < Cols(b) :: SameInColumn(b, r, j))
  }

  /** Cells (i, c), (i, c+1), (i, c+2) are equal, empty or not. */
  predicate SameInRow(b: Board, i: nat, c: nat)
    requires Grid(b) && i < |b| && c + 2 < Cols(b)
  {
    b[i][c] == b[i][c + 1] && b[i][c] == b[i][c + 2]
  }

  /** Cells (r, j), (r+1, j), (r+2, j) are equal, empty or not. */
  predicate SameInColumn(b: Board, r: nat, j: nat)
    requires Grid(b) && r + 2 < |b| && j < Cols(b)
  {
    b[r][j] == b[r + 1][j] && b[r][j] == b[r + 2][j]
  }

  /** Horizontal windows starting before column `lim` that cover (i, j): what the row scan has marked so far. */
  predicate HScanned(b: Board, i: int, j: int, lim: int) {
    exists c | j - 2 <= c <= j && c < lim :: HRun(b, i, c)
  }

  /** Vertical windows starting before row `lim` that cover (i, j): what the column scan has marked so far. */
  predicate VScanned(b: Board, i: int, j: int, lim: int) {
    exists r | i - 2 <= r <= i && r < lim :: VRun(b, r, j)
  }

  /** A `rows` by `cols` mask of booleans. */
  predicate MaskShape(m: seq<seq<bool>>, rows: nat, cols: nat) {
    |m| == rows && forall i | 0 <= i < rows :: |m[i]| == cols
  }

  /**
   The marking phase of Match3Game.checkMatches: scan every row for windows of
   three equal non-empty cells and mark them, then scan every column the same
   way. A cell ends up marked exactly when some horizontal or vertical window
   covers it; a cell covered by both is marked once.
   */
  method ComputeMask(b: Board) returns (m: seq<seq<bool>>)
    requires Grid(b)
    ensures MaskShape(m, |b|, Cols(b))
    ensures forall i, j | 0 <= i < |b| && 0 <= j < Cols(b) :: m[i][j] <==> Marked(b, i, j)
  {
    var rows: int, cols: int := |b|, Cols(b);
    m := seq(rows, _ => seq(cols, _ => false));
    var row := 0;
    while row < rows
      invariant 0 <= row <= rows
      invariant MaskShape(m, rows, cols)
      invariant forall i, j | 0 <= i < rows && 0 <= j < cols :: m[i][j] <==> (i < row && InHRun(b, i, j))
    {
      var col := 0;
      while col < cols - 2
        invariant 0 <= col <= cols
        invariant MaskShape(m, rows, cols)
        invariant forall i, j | 0 <= i < rows && 0 <= j < cols ::
                    m[i][j] <==> (i < row && InHRun(b, i, j)) || (i == row && HScanned(b, i, j, col))
      {
        if b[row][col].Some? && b[row][col] == b[row][col + 1] && b[row][col] == b[row][col + 2] {
          assert HRun(b, row, col);
          m := m[row := m[row][col := true][col + 1 := true][col + 2 := true]];
        }
        col := col + 1;
      }
      row := row + 1;
    }
    var col := 0;
    while col < cols
      invariant 0 <= col <= cols
      invariant MaskShape(m, rows, cols)
      invariant forall i, j | 0 <= i < rows && 0 <= j < cols :: m[i][j] <==> InHRun(b, i, j) || (j < col && InVRun(b, i, j))
    {
      row := 0;
      while row < rows - 2
        invariant 0 <= row <= rows
        invariant MaskShape(m, rows, cols)
        invariant forall i, j | 0 <= i < rows && 0 <= j < cols ::
                    m[i][j] <==> InHRun(b, i, j) || (j < col && InVRun(b, i, j)) || (j == col && VScanned(b, i, j, row))
      {
        if b[row][col].Some? && b[row][col] == b[row + 1][col] && b[row][col] == b[row + 2][col] {
          assert VRun(b, row, col);
          m := m[row := m[row][col := true]][row + 1 := m[row + 1][col := true]][row + 2 := m[row + 2][col := true]];
        }
        row := row + 1;
      }
      col := col + 1;
    }
  }

  /**
   On a board without empty cells, the construction-time test agrees with the
   removal mask: it reports a match exactly when some cell would be marked.
   */
  lemma {:induction false} InitialMatchesIffMarked(b: Board)
    requires Grid(b) && Full(b)
    ensures HasInitialMatches(b) <==> AnyMarked(b)
  {
    if HasInitialMatches(b) {
      if exists i, c | 0 <= i < |b| && 0 <= c && c + 2 < Cols(b) :: SameInRow(b, i, c) {
        var i, c :| 0 <= i < |b| && 0 <= c && c + 2 < Cols(b) && SameInRow(b, i, c);
        assert b[i][c].Some?;
        assert HRun(b, i, c) && Marked(b, i, c);
      } else {
        var r, j :| 0 <= r && r + 2 < |b| && 0 <= j < Cols(b) && SameInColumn(b, r, j);
        assert b[r][j].Some?;
        assert VRun(b, r, j) && Marked(b, r, j);
      }
    }
    if AnyMarked(b) {
      var i, j :| 0 <= i < |b| && 0 <= j < |b[i]| && Marked(b, i, j);
      if InHRun(b, i, j) {
        var c :| j - 2 <= c <= j && HRun(b, i, c);
        assert SameInRow(b, i, c);
      } else {
        var r :| i - 2 <= r <= i && VRun(b, r, j);
        assert SameInColumn(b, r, j);
      }
    }
  }

  /** Three empty cells in a row satisfy the construction-time test but mark nothing. */
  lemma InitialMatchesCountsEmptyCells()
    ensures var b: Board := [[None, None, None]];
            Grid(b) && HasInitialMatches(b) && !AnyMarked(b)
  {
    var b: Board := [[None, None, None]];
    assert SameInRow(b, 0, 0);
  }

  /** A subset is no larger than its superset. */
  lemma SubsetSize<T>(a: set<T>, b: set<T>)
    requires a <= b
    ensures |a| <= |b|
  {
    assert b == (b - a) + a;
    assert (b - a) * a == {};
  }

  /**
   The marked cells form a set, so a cell covered twice counts once; a
   non-empty pass clears at least three cells. The last clause unfolds the
   set's membership for callers.
   */
  lemma {:induction false} MarkedCellsSize(b: Board)
    ensures AnyMarked(b) <==> MarkedCells(b) != {}
    ensures AnyMarked(b) ==> |MarkedCells(b)| >= 3
    ensures forall i, j :: (i, j) in MarkedCells(b) <==> 0 <= i < |b| && 0 <= j < |b[i]| && (InHRun(b, i, j) || InVRun(b, i, j))
  {
    if AnyMarked(b) {
      var i, j :| 0 <= i < |b| && 0 <= j < |b[i]| && Marked(b, i, j);
      assert (i, j) in MarkedCells(b);
      var three: set<(int, int)>;
      if InHRun(b, i, j) {
        var c :| j - 2 <= c <= j && HRun(b, i, c);
        assert InHRun(b, i, c) && InHRun(b, i, c + 1) && InHRun(b, i, c + 2);
        three := {(i, c), (i, c + 1), (i, c + 2)};
      } else {
        var r :| i - 2 <= r <= i && VRun(b, r, j);
        assert InVRun(b, r, j) && InVRun(b, r + 1, j) && InVRun(b, r + 2, j);
        three := {(r, j), (r + 1, j), (r + 2, j)};
      }
      assert |three| == 3;
      SubsetSize(three, MarkedCells(b));
    }
  }
}

=== FILE: scenarios.dfy ===
/** Small worked boards for the detector and the removal pass. */
module Scenarios {
  import opened Wrappers
  import opened Board
  import opened Matches
  import opened Gravity
  import opened Engine

  const R: Cell := Some(Red)
  const G: Cell := Some(Green)
  const B: Cell := Some(Blue)

  /**
   A single row Red, Red, Blue, Blue, Blue: the three blues are marked, the
   pass keeps the two reds, puts three fresh colours where the blues were, and
   scores 30.
   */
  lemma OneRowPass(score: int, x: Colour, y: Colour, z: Colour)
    ensures var b: Board := [[R, R, B, B, B]];
            && MarkedCells(b) == {(0, 2), (0, 3), (0, 4)}
            && Pass(Game(b, score), [x, y, z]) == Some((Game([[R, R, Some(x), Some(y), Some(z)]], score + 30), []))
  {
    var b: Board := [[R, R, B, B, B]];
    OneRowMarks();
    var cleared: Board := [[R, R, None, None, None]];
    DropOneRow(cleared);
    RefillOneRow(x, y, z);
    assert |MarkedCells(b)| == 3;
    PassOf(Game(b, score), [x, y, z]);
  }

  /** Refilling the cleared, dropped row draws the three colours left to right and leaves none. */
  lemma RefillOneRow(x: Colour, y: Colour, z: Colour)
    ensures Refill([[R, R, None, None, None]], [x, y, z]) == Some(([[R, R, Some(x), Some(y), Some(z)]], []))
  {
    var b: Board := [[R, R, None, None, None]];
    RefillRowScenario(x, y, z);
    assert b[1..] == [];
    var whole := Refill(b, [x, y, z]);
    assert whole.value.0 == [[R, R, Some(x), Some(y), Some(z)]];
    assert whole.value.1 == [];
  }

  /** In the row Red, Red, Blue, Blue, Blue exactly the blues are marked, and clearing empties them. */
  lemma OneRowMarks()
    ensures var b: Board := [[R, R, B, B, B]];
            && AnyMarked(b)
            && MarkedCells(b) == {(0, 2), (0, 3), (0, 4)}
            && Clear(b) == [[R, R, None, None, None]]
  {
    var b: Board := [[R, R, B, B, B]];
    assert HRun(b, 0, 2);
    assert !HRun(b, 0, 0) && !HRun(b, 0, 1);
    assert !Marked(b, 0, 0) && !Marked(b, 0, 1);
    assert Marked(b, 0, 2) && Marked(b, 0, 3) && Marked(b, 0, 4);
    assert MarkedCells(b) == {(0, 2), (0, 3), (0, 4)};
    CellwiseEqual(Clear(b), [[R, R, None, None, None]]);
  }

  /** The refill of the cleared row draws the three colours left to right. */
  lemma RefillRowScenario(x: Colour, y: Colour, z: Colour)
    ensures var r := RefillRow([R, R, None, None, None], [x, y, z], 0);
            r.Some? && r.value == [R, R, Some(x), Some(y), Some(z)]
    ensures EmptyCount([R, R, None, None, None]) == 3
  {
    var supply := [x, y, z];
    var c0: seq<Cell> := [R, R, None, None, None];
    var c1: seq<Cell> := [R, None, None, None];
    var c2: seq<Cell> := [None, None, None];
    var c3: seq<Cell> := [None, None];
    var c4: seq<Cell> := [None];
    var e: seq<Cell> := [];
    assert c0[1..] == c1 && c1[1..] == c2 && c2[1..] == c3 && c3[1..] == c4 && c4[1..] == e;
    EmptyCountFront(c4);
    EmptyCountFront(c3);
    EmptyCountFront(c2);
    EmptyCountFront(c1);
    EmptyCountFront(c0);
    calc {
      RefillRow(c0, supply, 0).value;
    == { RefillRowFront(c0, supply, 0); }
      [R] + RefillRow(c1, supply, 0).value;
    == { RefillRowFront(c1, supply, 0); }
      [R] + ([R] + RefillRow(c2, supply, 0).value);
    == { RefillRowFront(c2, supply, 0); }
      [R] + ([R] + ([Some(x)] + RefillRow(c3, supply, 1).value));
    == { RefillRowFront(c3, supply, 1); }
      [R] + ([R] + ([Some(x)] + ([Some(y)] + RefillRow(c4, supply, 2).value)));
    == { RefillRowFront(c4, supply, 2); }
      [R] + ([R] + ([Some(x)] + ([Some(y)] + ([Some(z)] + RefillRow(e, supply, 3).value))));
    ==
      [R, R, Some(x), Some(y), Some(z)];
    }
  }

  /** With a single row nothing can fall. */
  lemma DropOneRow(b: Board)
    requires Grid(b) && |b| == 1
    ensures Drop(b) == b
  {
    forall j | 0 <= j < Cols(b)
      ensures Drop(b)[0][j] == b[0][j]
    {
      var c := Column(b, j);
      assert c == [b[0][j]];
      assert Tiles(c) == (if b[0][j].Some? then [b[0][j].value] else []);
    }
    CellwiseEqual(Drop(b), b);
  }

  /**
   An L of reds, along the top row and down the first column: the corner
   cell is in both runs but is marked once, so the pass clears five cells, not
   six, and scores 50.
   */
  lemma CornerCountsOnce(score: int, supply: seq<Colour>)
    ensures var b: Board := [[R, R, R], [R, B, G], [R, G, B]];
            && MarkedCells(b) == {(0, 0), (0, 1), (0, 2), (1, 0), (2, 0)}
            && |MarkedCells(b)| == 5
            && (Pass(Game(b, score), supply).Some? ==> Pass(Game(b, score), supply).value.0.score == score + 50)
  {
    var b: Board := [[R, R, R], [R, B, G], [R, G, B]];
    assert HRun(b, 0, 0) && VRun(b, 0, 0);
    assert !HRun(b, 1, 0) && !HRun(b, 2, 0) && !VRun(b, 0, 1) && !VRun(b, 0, 2);
    assert Marked(b, 0, 0) && Marked(b, 0, 1) && Marked(b, 0, 2) && Marked(b, 1, 0) && Marked(b, 2, 0);
    assert !Marked(b, 1, 1) && !Marked(b, 1, 2) && !Marked(b, 2, 1) && !Marked(b, 2, 2);
    assert MarkedCells(b) == {(0, 0), (0, 1), (0, 2), (1, 0), (2, 0)};
    assert AnyMarked(b);
  }
}

=== FILE: setup.dfy ===
/**
 Construction of a game (the Match3Game constructor): deal a board, deal
 again while it holds a match, then look for a playable swap by probing swaps
 and undoing them, and force one swap if the search finds none.
 */
module Setup {
  import opened Wrappers
  import opened Board
  import opened Matches
  import opened Gravity
  import opened Engine

  /** The colours of a board's cells in row-major order. */
  function Flatten(b: Board): seq<Colour> {
    if b == [] then [] else Tiles(b[0]) + Flatten(b[1..])
  }

  /**
   Match3Game.initializeGrid: `rows` rows of `cols` cells, every cell a fresh
   colour of the supply in row-major order. It draws exactly `rows * cols`
   colours: reading the dealt board back in that order and appending the
   undrawn colours gives the supply again.
   */
  function Deal(supply: seq<Colour>, rows: nat, cols: nat): (r: Option<(Board, seq<Colour>)>)
    ensures r.Some? <==> |supply| >= rows * cols
    ensures r.Some? ==> |r.value.0| == rows && Full(r.value.0)
    ensures r.Some? ==> forall i | 0 <= i < rows :: |r.value.0[i]| == cols
    ensures r.Some? ==> Flatten(r.value.0) + r.value.1 == supply
    ensures r.Some? ==> |r.value.1| == |supply| - rows * cols
    decreases rows
  {
    if rows == 0 then Some(([], supply))
    else if |supply| < cols then
      RowsTimesCols(rows, cols);
      None
    else
      RowsTimesCols(rows, cols);
      match Deal(supply[cols..], rows - 1, cols)
      case None => None
      case Some((b, rest)) =>
        var row := Lift(supply[..cols]);
        TilesOfLift(supply[..cols]);
        assert ([row] + b)[1..] == b;
        assert supply == supply[..cols] + supply[cols..];
        Some(([row] + b, rest))
  }

  lemma RowsTimesCols(rows: nat, cols: nat)
    requires rows > 0
    ensures rows * cols == (rows - 1) * cols + cols
    ensures rows * cols >= cols
  {
  }

  /**
   The constructor's reroll loop: deal an 8 × 8 board, and deal again while
   Match3Game.hasInitialMatches finds three equal cells. The board it keeps is
   full and has no match. Every deal draws 64 colours, so the supply bounds the
   number of deals.
   */
  function Reroll(supply: seq<Colour>): (r: Option<(Board, seq<Colour>)>)
    ensures r.Some? ==> Grid(r.value.0) && |r.value.0| == ROWS && Cols(r.value.0) == COLS
    ensures r.Some? ==> Full(r.value.0) && !HasInitialMatches(r.value.0) && !AnyMarked(r.value.0)
    ensures r.Some? ==> |r.value.1| <= |supply| - ROWS * COLS
    decreases |supply|
  {
    match Deal(supply, ROWS, COLS)
    case None => None
    case Some((b, rest)) =>
      if HasInitialMatches(b) then Reroll(rest)
      else
        InitialMatchesIffMarked(b);
        Some((b, rest))
  }

  /**
   What the probes of Match3Game.canTriggerMatch look for at (row, col):
   swapping the cell with the one above it, tried only when the row is
   neither the top nor the bottom one, or with the one to its left, tried only
   when the column is neither the leftmost nor the rightmost one, leaves
   three equal cells in a line on the swapped board. On a match-free board,
   the only kind the game probes, that means the swap creates them.
   */
  predicate ProbeFinds(b: Board, row: nat, col: nat)
    requires Grid(b) && row < |b| && col < Cols(b)
  {
    || (0 < row < |b| - 1 && HasInitialMatches(Swap(b, Point(col, row), Point(col, row - 1))))
    || (0 < col < Cols(b) - 1 && HasInitialMatches(Swap(b, Point(col, row), Point(col - 1, row))))
  }

  /** Some probe finds a match. */
  predicate MoveExists(b: Board)
    requires Grid(b)
  {
    exists i, j | 0 <= i < |b| && 0 <= j < Cols(b) :: ProbeFinds(b, i, j)
  }

  /**
   One probe of Match3Game.canTriggerMatch: swap, test, and swap back, whether
   the test succeeded or not. The board comes back exactly as it was on every
   path, and the answer is what the probes look for.
   */
  function CanTriggerMatch(b: Board, row: nat, col: nat): (r: (bool, Board))
    requires Grid(b) && row < |b| && col < Cols(b)
    ensures r.1 == b
    ensures r.0 <==> ProbeFinds(b, row, col)
  {
    var here := Point(col, row);
    var (found, b1) :=
      if 0 < row < |b| - 1 then
        var up := Point(col, row - 1);
        var probed := Swap(b, here, up);
        SwapTwice(b, here, up);
        if HasInitialMatches(probed) then (true, Swap(probed, here, up)) else (false, Swap(probed, here, up))
      else (false, b);
    if found then (true, b1)
    else if 0 < col < Cols(b) - 1 then
      var left := Point(col - 1, row);
      var probed := Swap(b1, here, left);
      SwapTwice(b1, here, left);
      if HasInitialMatches(probed) then (true, Swap(probed, here, left)) else (false, Swap(probed, here, left))
    else (false, b1)
  }

  /** The swaps the probes at (row, col) try, each as the pair of cells it exchanges. */
  function ProbedPairs(b: Board, row: nat, col: nat): set<set<Point>>
    requires Grid(b)
  {
    (if 0 < row < |b| - 1 then {{Point(col, row), Point(col, row - 1)}} else {})
    + (if 0 < col < Cols(b) - 1 then {{Point(col, row), Point(col - 1, row)}} else {})
  }

  /** The probes at some position try exchanging `p` and `q`. */
  predicate Probed(b: Board, p: Point, q: Point)
    requires Grid(b)
  {
    exists row, col | 0 <= row < |b| && 0 <= col < Cols(b) :: {p, q} in ProbedPairs(b, row, col)
  }

  function Max(a: int, b: int): int {
    if a < b then b else a
  }

  /**
   Which adjacent swaps the construction-time search ever tries: a vertical
   swap exactly when its lower cell is above the bottom row, a horizontal
   swap exactly when its right cell is left of the rightmost column. The swap
   of the two bottom rows and the swap of the two rightmost columns are never
   tried.
   */
  lemma ProbeCoverage(b: Board, p: Point, q: Point)
    requires Grid(b) && InBounds(b, p) && InBounds(b, q) && IsValidSwap(p, q)
    ensures Probed(b, p, q) <==> if p.x == q.x then Max(p.y, q.y) < |b| - 1 else Max(p.x, q.x) < Cols(b) - 1
  {
    if p.x == q.x {
      var row := Max(p.y, q.y);
      if row < |b| - 1 {
        assert {p, q} == {Point(p.x, row), Point(p.x, row - 1)};
        assert {p, q} in ProbedPairs(b, row, p.x);
      }
      if Probed(b, p, q) {
        var r, c :| 0 <= r < |b| && 0 <= c < Cols(b) && {p, q} in ProbedPairs(b, r, c);
        assert {p, q} == {Point(c, r), Point(c, r - 1)};
        assert p in {Point(c, r), Point(c, r - 1)} && q in {Point(c, r), Point(c, r - 1)};
      }
    } else {
      var col := Max(p.x, q.x);
      if col < Cols(b) - 1 {
        assert {p, q} == {Point(col, p.y), Point(col - 1, p.y)};
        assert {p, q} in ProbedPairs(b, p.y, col);
      }
      if Probed(b, p, q) {
        var r, c :| 0 <= r < |b| && 0 <= c < Cols(b) && {p, q} in ProbedPairs(b, r, c);
        assert {p, q} == {Point(c, r), Point(c - 1, r)};
        assert p in {Point(c, r), Point(c - 1, r)} && q in {Point(c, r), Point(c - 1, r)};
      }
    }
  }

  /** (i, j) comes at or after (row, col) in row-major order. */
  predicate FromOn(row: int, col: int, i: int, j: int) {
    i > row || (i == row && j >= col)
  }

  /**
   The search loop of Match3Game.ensureAtLeastOneMove from (row, col) on, in
   row-major order, stopping at the first probe that succeeds. The board is
   unchanged, and the answer is whether some probe at or after (row, col)
   succeeds.
   */
  function ScanFrom(b: Board, row: nat, col: nat): (r: (bool, Board))
    requires Grid(b) && row <= |b| && col <= Cols(b)
    ensures r.1 == b
    ensures r.0 <==> exists i, j | 0 <= i < |b| && 0 <= j < Cols(b) && FromOn(row, col, i, j) :: ProbeFinds(b, i, j)
    decreases |b| - row, Cols(b) - col
  {
    if row == |b| then (false, b)
    else if col == Cols(b) then
      var r := ScanFrom(b, row + 1, 0);
      assert forall i, j | 0 <= i < |b| && 0 <= j < Cols(b) :: FromOn(row, col, i, j) <==> FromOn(row + 1, 0, i, j);
      r
    else
      var (found, b1) := CanTriggerMatch(b, row, col);
      if found then (true, b1)
      else
        var r := ScanFrom(b1, row, col + 1);
        assert forall i, j | 0 <= i < |b| && 0 <= j < Cols(b) ::
          FromOn(row, col, i, j) <==> (i == row && j == col) || FromOn(row, col + 1, i, j);
        r
  }

  /** The cells the forced swap exchanges: (row 0, column 0) and (row 1, column 0), as `Point(x, y)` puts the column first. */
  const FORCED_A: Point := Point(0, 0)
  const FORCED_B: Point := Point(0, 1)

  /**
   Match3Game.ensureAtLeastOneMove: when some probe succeeds the board is left
   as it was; when none does, the two top cells of the first column are
   swapped, with no check that this creates a move or keeps the board free of
   matches.
   */
  function EnsureAtLeastOneMove(b: Board): (r: Board)
    requires Grid(b) && |b| >= 2
    ensures Grid(r) && SameShape(r, b)
    ensures MoveExists(b) ==> r == b
    ensures !MoveExists(b) ==> r == Swap(b, FORCED_A, FORCED_B)
  {
    var (found, b1) := ScanFrom(b, 0, 0);
    if found then b1 else Swap(b1, FORCED_A, FORCED_B)
  }

  /**
   The Match3Game constructor: reroll, then ensure a move, with score 0. The
   new board is 8 × 8 and full, and either it has no match and a probe finds a
   move, or it is the forced swap of such a match-free board on which no probe
   found one.
   */
  function NewGame(supply: seq<Colour>): (o: Outcome)
    ensures o.Settled? || o.Starved?
    ensures o.Settled? ==> o.game.score == 0 && Grid(o.game.board)
    ensures o.Settled? ==> |o.game.board| == ROWS && Cols(o.game.board) == COLS && Full(o.game.board)
    ensures o.Settled? ==>
              || (!HasInitialMatches(o.game.board) && MoveExists(o.game.board))
              || (var undone := Swap(o.game.board, FORCED_A, FORCED_B);
                  Grid(undone) && !HasInitialMatches(undone) && !MoveExists(undone))
  {
    match Reroll(supply)
    case None => Starved
    case Some((b, rest)) =>
      SwapTwice(b, FORCED_A, FORCED_B);
      SwapKeepsFull(b, FORCED_A, FORCED_B);
      Settled(Game(EnsureAtLeastOneMove(b), 0), rest)
  }
}

=== FILE: wrappers.dfy ===
/** Option type used for cells that may be empty and for partial results. */
module Wrappers {

  /** `None` stands where the game stores `null`. */
  datatype Option<+T> = None | Some(value: T)
}
